=== FILE: README.md ===
# Video app backend: request-handling model

A Dafny model of the request-handling logic of the Flask backend in
`backend/app.py`. That backend registers users, logs them in, lists the
active videos a page at a time, hands out YouTube embed URLs for videos, seeds
a sample catalogue, and revokes JWTs on logout.

Each endpoint is a pure function from (environment, state, request) to
(reply, next state):

- The MongoDB collections are immutable values in `Store.State`:
  - `users` is a map keyed by the normalised e-mail address;
  - `videos` is a sequence. Its order stands for the order in which the unsorted query returns documents, and `skip`/`limit` page through that order. The model takes this order as fixed; see "Left out";
  - `revoked` is a map keyed by JWT id;
  - `watchLog` is a sequence.
- Foreign code is passed in as opaque functions, the fields of `Store.Env`. This covers bcrypt, JWT creation, the signed playback token, the clock reading and the generated uuids (handler arguments).
- Status codes and error messages are those of the source.

Modules:

- `Text` (`text.dfy`): Python's `str.strip()` and `str.lower()`, and e-mail normalisation.
- `Store` (`store.dfy`): the documents, the state, the environment, and the store invariants (`Valid`).
- `Auth` (`auth.dfy`): `signup` and `login`.
- `Blocklist` (`blocklist.dfy`): `logout` and `check_if_token_revoked`.
- `Videos` (`videos.dfy`): `get_dashboard` with its pagination, `get_video_stream`, and `seed_videos`.
- `Api` (`api.dfy`): one dispatcher over all modelled endpoints. It places the revocation check in front of the `@jwt_required()` endpoints, and it holds the whole-system lemmas: the invariants are preserved, and revocation is permanent.

## Model

| member | source | states |
|---|---|---|
| `Text.Strip` | backend/app.py:176-177 | The stripped value neither starts nor ends with whitespace. It is empty exactly when the input is all whitespace, using Python's `isspace` set. |
| `Text.StripLeft` | backend/app.py:176 | Leading whitespace removed: the result is a suffix of the input that is empty or starts with a non-whitespace code point. |
| `Text.StripLeftCutsSpace` | backend/app.py:176 | Everything the left strip removes is whitespace. |
| `Text.StripRight` | backend/app.py:176 | Trailing whitespace removed: the result is a prefix of the input that is empty or ends with a non-whitespace code point. |
| `Text.StripRightCutsSpace` | backend/app.py:176 | Everything the right strip removes is whitespace. |
| `Text.StripDecompose` | backend/app.py:176 | Every string is its stripped value with whitespace on both sides. |
| `Text.StripOfPadded` | backend/app.py:176 | Stripping any whitespace-padded `a + x + b` returns the unpadded core `x`. Together with `Strip`'s contract, this defines strip completely. |
| `Text.StripIdempotent` | backend/app.py:176 | Stripping twice gives the same result as stripping once. |
| `Text.Lower` | backend/app.py:177 | Lowercasing keeps the length, leaves no ASCII capital, and changes each code point only into its lower-case letter. |
| `Text.Normalise` | backend/app.py:177 | The normalised address is empty exactly when the raw address is blank, so the emptiness check after normalising rejects exactly the blank addresses. |
| `Text.NormaliseIsNormalForm` | backend/app.py:177 | The normalised address has no surrounding whitespace and no ASCII capitals. |
| `Text.NormaliseIdempotent` | backend/app.py:177 | Normalising an already normalised address changes nothing, so a stored address is found again by the lookup that stored it. |
| `Text.StripIgnoresPadding` | backend/app.py:176 | Extra whitespace around a string does not change what stripping returns. |
| `Text.NormaliseIgnoresPadding` | backend/app.py:233 | Whitespace around an address does not change which account it names. |
| `Auth.Signup` | backend/app.py:167-216 | Gives 400 exactly for a JSON `null` or empty-object body, a blank name or address, or a password shorter than 6 code points (length 6 is accepted and the password is not stripped). Gives 409 exactly when the normalised address is already registered, and 201 otherwise. Non-201 replies are errors and leave the state unchanged. A 201 stores the new document under the normalised address, changes nothing else, and returns the new user's view and the tokens issued for the generated id. |
| `Auth.SignupAddsOneUser` | backend/app.py:187-216 | A 201 adds exactly one user, under the normalised address that was not registered before. That user has the generated id, the stripped name, the normalised address, the hash of the unstripped password, `is_active` true and no `last_login`. Every earlier user is unchanged, and so are the videos, revocations and watch log. The reply shows that stored user, with an access token for its id. |
| `Auth.SignupPreservesValid` | backend/app.py:187-201 | With a fresh generated id, signup keeps e-mails unique and normalised and keeps user ids unique. |
| `Auth.SignupTwiceConflicts` | backend/app.py:187-188 | After a successful signup, any signup that passes validation and whose address normalises to the same one gets 409 and changes nothing. |
| `Auth.SignupStoresNewUser` | backend/app.py:176-201 | A 201 means the body passed validation, and the new document is stored under the requested normalised address. |
| `Auth.LoginAccepts` | backend/app.py:230-247 | A non-empty body with a non-blank registered address, a non-empty password the password check accepts, and an account not marked inactive logs in with 200. |
| `Auth.SignupThenLogin` | backend/app.py:233-250 | An account just created logs in with 200, using its password and any spelling of the address that normalises to the same one, provided the password check accepts the hash of its own password. |
| `Auth.Login` | backend/app.py:225-268 | Gives 400 exactly for a JSON `null` or empty-object body, a blank address or an empty password. Gives 401 exactly for an unknown address or a failed password check; this is decided before the active flag is read. Gives 403 exactly for a matching user whose flag is stored false, where a missing flag counts as active. Gives 200 otherwise, and only a 200 changes the state. |
| `Auth.StampOnlyOne` | backend/app.py:253-256 | With unique user ids, the `$set` by the id of the user stored under an address rewrites that one entry, setting its `last_login`, and leaves every other entry as it was. |
| `Auth.LoginStampsOnlyThatUser` | backend/app.py:253-256 | Because user ids are unique, a successful login sets that user's `last_login` to the request time and changes nothing else. |
| `Auth.LoginPreservesValid` | backend/app.py:253-256 | Login keeps the store invariants. |
| `Blocklist.Logout` | backend/app.py:328-343 | Gives 200 exactly for a token not yet recorded. Afterwards the token's JWT id is recorded with its user and time, no other record changes and none is removed, and nothing outside the revoked collection changes. A repeated JWT id gives 500 and changes nothing. |
| `Api.Handle` | backend/app.py:97-101 | A protected request whose JWT id is recorded gets 401 and changes nothing. No request removes or alters a revocation. For a protected request the converse holds too: it gets 401 exactly when its JWT id is recorded, so no endpoint refuses a live token with 401. |
| `Api.LogoutBehindGate` | backend/app.py:326-339 | Behind the revocation check, logout answers 200 for a live token and 401 for a revoked one, never 500. Either way, the token is revoked afterwards. |
| `Api.RevocationIsPermanent` | backend/app.py:97-101 | Once a JWT id is revoked, it stays revoked after any sequence of requests. |
| `Api.LoggedOutTokenRefused` | backend/app.py:331-339 | After a logout, every later protected request that carries the same token gets 401 and changes nothing, whatever requests come in between. |
| `Api.HandlePreservesValid` | backend/app.py:187-201 | Every request keeps the invariants: e-mails unique and normalised, user ids unique, video ids unique. This assumes generated ids are fresh. |
| `Videos.ActiveVideos` | backend/app.py:364-369 | The listed videos are exactly the stored videos whose flag is stored `True`. A missing flag does not match the query. |
| `Videos.ActiveConcat` | backend/app.py:364-366 | Filtering keeps the collection's order: the listed videos of `a + b` are those of `a` followed by those of `b`. |
| `Videos.AllListedAreActive` | backend/app.py:364-366 | A collection whose every video is stored active is listed whole and in order. |
| `Videos.TotalPagesIsCeiling` | backend/app.py:391 | `total_pages * per_page >= total`. When `total > 0`, also `(total_pages - 1) * per_page < total`. When `total = 0`, `total_pages = 0`. |
| `Videos.PageOf` | backend/app.py:364-366 | A page holds at most `per_page` videos: the listed videos from offset `(page - 1) * per_page` on, as many as remain. |
| `Videos.PagesCoverActive` | backend/app.py:360-391 | Pages 1 to `total_pages`, read in order, return every listed video exactly once and in order. |
| `Videos.PagesBeyondAreEmpty` | backend/app.py:360-391 | Every page after `total_pages` is empty. |
| `Videos.Dashboard` | backend/app.py:354-393 | Always gives 200 and never changes the state. There are exactly as many cards as the requested page (`PageOf`) holds, at most `per_page`. Card `i` is the card of listed video `(page - 1) * per_page + i`, in order, with a playback token for the requesting user. `total` is the number of listed videos. `total_pages` is `TotalPages` of it, the ceiling division by `per_page` (`TotalPagesIsCeiling`), so an empty listing has 0 pages. |
| `Videos.FindVideo` | backend/app.py:413 | Returns the position of the first video with the id, or none exactly when no video has it. |
| `Videos.Stream` | backend/app.py:402-453 | A present, non-empty token with a non-ASCII code point makes `secrets.compare_digest` (backend/app.py:146) raise, so it gets 500 "Internal server error" and changes nothing; 500 arises in no other case. A missing, empty or rejected ASCII playback token gives 403. Both are decided whatever the store holds. Otherwise an unknown id gives 404. A video whose flag is stored false gives 403, where a missing flag counts as active. An accepted token and a found, active video always give 200. That reply carries `embed_url = "https://www.youtube.com/embed/" + youtube_id`, and one `stream_requested` watch event is appended. Only a 200 changes the state. |
| `Videos.StreamChecksTokenFirst` | backend/app.py:409-413 | With a rejected token, the reply is the same for any two stores: the token is checked before the video is looked up. |
| `Videos.StreamServesThatVideo` | backend/app.py:413-433 | With unique video ids, an accepted token and an active video, the reply embeds exactly that video. |
| `Videos.SampleVideos` | backend/app.py:508-545 | The four samples carry the generated ids and are all active. Each thumbnail is the `maxresdefault` image of its YouTube id. |
| `Videos.Seed` | backend/app.py:501-551 | Gives 200 with no change exactly when any video exists, active or not. An empty store always gets 201 and exactly the four samples (`SampleVideos`), under the given ids and in catalogue order. Nothing else changes. |
| `Videos.SeedIdempotent` | backend/app.py:505-506 | After one seed request, a second one answers 200 and leaves the store exactly as the first left it. |
| `Videos.SeedListsSamples` | backend/app.py:501-551 | After seeding an empty store, the dashboard lists exactly the four samples, in catalogue order. |
| `Videos.SeedKeepsIdsDistinct` | backend/app.py:508-547 | With four distinct generated ids, video ids stay unique after seeding. |

## Left out

- Flask plumbing (backend/app.py:65-79, 152-161, 579-598) is not modelled: routing, decorators, CORS, rate limiting, request and response logging, and the error handlers.
- MongoDB I/O is replaced by values. Index creation and the 7-day expiry of revocation records (backend/app.py:606-611) are not modelled; that expiry is database-side timing.
- The unique `jti` index of backend/app.py:607 is assumed to exist. It is created only when the module is run as a script. Without it, a repeated logout would store a second record instead of failing with 500. Behind the revocation check that case cannot arise (`Api.LogoutBehindGate`).
- bcrypt (backend/app.py:105-112) is the opaque pair `Env.hashPassword` / `Env.checkPassword`. The lemma that needs the two to agree, `Auth.SignupThenLogin`, takes that agreement as a hypothesis.
- JWT creation and verification are opaque. `generate_tokens` (backend/app.py:114-123) uses `Env.accessToken` / `Env.refreshToken`.
- The JWT library's handling of missing, malformed, expired or wrong-kind tokens is not modelled. A protected request carries already-accepted `Claims`; only the revocation check (backend/app.py:97-101) is modelled.
- The refresh endpoint (backend/app.py:275-300) and the profile endpoint `/api/auth/me` (backend/app.py:303-323) are not modelled. They do little beyond JWT library calls and one lookup by id.
- Fernet encryption of YouTube ids (backend/app.py:125-131) is not modelled; no handler uses it.
- Playback tokens (backend/app.py:133-148) are the opaque `Env.playbackToken` and `Env.verifyPlayback`. The verifier rebuilds full ISO timestamps with microseconds for now, now - 1 h and now - 2 h. A token therefore verifies only when checked at exactly one of those instants after it was minted, not at any time within two hours as the comment says. Hashing and the clock are foreign, so this is recorded here and not modelled. Only the verifier's raising on a non-ASCII token is modelled (`Videos.TokenRaises`), because it decides the status code.
- Bodies and fields outside the model's JSON (an object of strings) are not modelled. The source's reply to them depends on their truthiness and type:
  - A falsy body that is not an object (`[]`, `0`, `false`, `""`) raises nothing. It reaches `if not data` (backend/app.py:173, 230) and gets 400. A truthy one raises at `data.get` and gets 500.
  - A falsy password that is not a string (`null`, `0`, `false`, `[]`) gets 400 at backend/app.py:180 or backend/app.py:236.
  - At login, a truthy password that is not a string gets 401 for an unregistered address, because `not user` is decided before `verify_password` (backend/app.py:242). For a registered address, `.encode` raises and the reply is 500.
  - At signup, a truthy non-string password gets 400 when `len` accepts it and gives less than 6 (a short list), and 500 otherwise.
  - A `name` or `email` that is present but not a string, `null` included, raises at `.strip()` and gets 500 at either endpoint.
  - A non-integer `page`/`per_page` (backend/app.py:360-361) raises and gets 500.
- Missing `page`/`per_page` default to 1 and 2 (`Api.DefaultPage`, `Api.DefaultPerPage`), and `Api.Handle` passes those values to `Videos.Dashboard`. No contract states this, because `Api.Outcome` keeps only the status and the state, and the dashboard changes neither.
- A request with no body, an unparsable body, or a content type other than JSON is not modelled. With Flask 2.1 or later, `request.get_json()` raises on such a request, and the handlers' `except Exception` (backend/app.py:218-220, 270-272) turns that into 500. `Option.None` is a body that parses to JSON `null`; that body, like `{}`, reaches `if not data` and gets 400.
- Stored documents are assumed to carry every field the handlers read with `[]`: `password_hash` (backend/app.py:242), `name` and `email` (backend/app.py:264-265), and a video's `title`, `description`, `thumbnail_url` (backend/app.py:378-380, 428-430) and `youtube_id` (backend/app.py:420). A document missing one raises `KeyError`, which becomes 500. `Store.User` and `Store.Video` make these fields mandatory, so `Videos.Dashboard`'s "always 200" and the 200 cases of `Videos.Stream` and `Auth.Login` hold only for such well-formed documents. Only `is_active` and a video's `created_at` are read with `.get` and may be missing.
- `Videos.Dashboard` and `Api.WellTyped` require `page >= 1` and `per_page >= 1`. The source's behaviour outside that range is not modelled:
  - `per_page = 0` divides by zero at backend/app.py:391, and a negative skip `(page - 1) * per_page` is rejected by the driver; both become 500.
  - A negative `per_page` with a non-negative skip does not fail. The driver reads a negative limit as a single batch of `|per_page|` documents, and the floor division gives a non-positive `total_pages`. For example, `page = 1, per_page = -2` with four listed videos answers 200 with two videos and `total_pages = -1`; `page = 0, per_page = -2` also answers 200.
  - A skip or limit of 2^63 or more overflows the driver's 64-bit integer and becomes a 500.
- The order of the videos is taken as one fixed order across requests. The dashboard query (backend/app.py:364-366) has no sort, and MongoDB promises neither insertion order nor a stable order between queries. `Videos.PagesCoverActive` relies on this assumption.
- Watch tracking (backend/app.py:456-495) is not modelled: it stores unvalidated client JSON. The health check (backend/app.py:560-574) is not modelled either: it is pure I/O.
- `Videos.Stream` always appends its watch event. The source swallows a failure of that insert (backend/app.py:439-447), and a failing database is not modelled.
- The check-then-insert race of signup (backend/app.py:187, 201) is not modelled. Requests are strictly sequential; in the source, the unique index on `email` (backend/app.py:606) would guard this race, but it is created only when the module is run as a script.
- `Auth.StampLastLogin` updates every document with the id, whereas `update_one` updates the first one. The two agree under the unique-id invariant that `Api.HandlePreservesValid` maintains.
- `Text.Lower` lowercases ASCII letters only. Python's `str.lower()` also maps non-ASCII cased letters.
- Generated uuids are handler arguments. Their freshness is a hypothesis of the invariant lemmas. `Videos.Seed` does not model the duplicate-key failure of `insert_many` on non-distinct ids.
- The clock is read once per request (`Env.now`). The source reads it several times within one request; for example, `created_at` and `updated_at` may differ by microseconds.
- The repository's description centres on a client-side token-refresh coordinator. That client code is not part of this model; its subject is concurrency.

=== FILE: api.dfy ===
/**
 The request dispatcher: every modelled endpoint as one step of a sequential
 state machine. The protected endpoints (`logout`, `dashboard`, `stream`)
 first pass the revocation check that the JWT library runs for
 `@jwt_required()`; a revoked token is refused with 401 before the handler
 runs.
 */
module Api {
  import opened Store
  import opened Auth
  import opened Blocklist
  import opened Videos

  datatype Request =
    | SignupRequest(body: Option<Json>, newId: string)
    | LoginRequest(body: Option<Json>)
    | LogoutRequest(claims: Claims)
    | DashboardRequest(claims: Claims, page: Option<int>, perPage: Option<int>)
    | StreamRequest(claims: Claims, videoId: string, token: Option<string>)
    | SeedRequest(ids: seq<string>)

  /** `request.args.get('page', 1)` and `request.args.get('per_page', 2)`:
      the page parameters a dashboard request leaves out. */
  const DefaultPage := 1
  const DefaultPerPage := 2

  /** The requests the model admits: page parameters, given or defaulted, of
      at least 1, and a seed request carrying its four generated ids. */
  predicate WellTyped(req: Request) {
    match req
    case DashboardRequest(_, page, perPage) => page.GetOr(DefaultPage) >= 1 && perPage.GetOr(DefaultPerPage) >= 1
    case SeedRequest(ids) => |ids| == 4
    case _ => true
  }

  /** The endpoints decorated with `@jwt_required()`. */
  predicate Protected(req: Request) {
    req.LogoutRequest? || req.DashboardRequest? || req.StreamRequest?
  }

  /** A status code and the state after the request. */
  datatype Outcome = Outcome(status: int, state: State)

  /** The part of a handler's step the dispatcher reports. */
  function OutcomeOf<T>(step: Step<T>): Outcome {
    Outcome(step.response.status, step.state)
  }

  /** One request. A protected request gets 401 exactly when its token is
      revoked, and then nothing changes; no request ever removes a
      revocation. */
  function Handle(env: Env, s: State, req: Request): (o: Outcome)
    requires WellTyped(req)
    ensures Protected(req) && IsRevoked(s, req.claims.jti) ==> o == Outcome(401, s)
    ensures Protected(req) ==> (o.status == 401 <==> IsRevoked(s, req.claims.jti))
    ensures s.revoked.Keys <= o.state.revoked.Keys
    ensures forall k :: k in s.revoked ==> o.state.revoked[k] == s.revoked[k]
  {
    if Protected(req) && IsRevoked(s, req.claims.jti) then
      Outcome(401, s)
    else
      match req
      case SignupRequest(body, newId) => OutcomeOf(Signup(env, s, body, newId))
      case LoginRequest(body) => OutcomeOf(Login(env, s, body))
      case LogoutRequest(claims) => OutcomeOf(Logout(env, s, claims))
      case DashboardRequest(claims, page, perPage) =>
        OutcomeOf(Dashboard(env, s, claims.identity, page.GetOr(DefaultPage), perPage.GetOr(DefaultPerPage)))
      case StreamRequest(claims, videoId, token) => OutcomeOf(Stream(env, s, claims.identity, videoId, token))
      case SeedRequest(ids) => OutcomeOf(Seed(env, s, ids))
  }

  /** Behind the revocation check, logout never reaches its duplicate-key
      error: it answers 200 for a live token and 401 for a revoked one, and
      afterwards the token is revoked either way. */
  lemma LogoutBehindGate(env: Env, s: State, claims: Claims)
    ensures var o := Handle(env, s, LogoutRequest(claims));
            && (o.status == 200 <==> !IsRevoked(s, claims.jti))
            && (o.status == 401 <==> IsRevoked(s, claims.jti))
            && IsRevoked(o.state, claims.jti)
  {
  }

  /** The state after a sequence of requests, each with its own environment
      (its own clock reading and collaborators). */
  function Run(s: State, trace: seq<(Env, Request)>): State
    requires forall i :: 0 <= i < |trace| ==> WellTyped(trace[i].1)
    decreases |trace|
  {
    if trace == [] then s else Run(Handle(trace[0].0, s, trace[0].1).state, trace[1..])
  }

  /** A revocation is permanent: whatever requests follow, the token stays
      revoked. */
  lemma {:induction false} RevocationIsPermanent(s: State, trace: seq<(Env, Request)>, jti: string)
    requires forall i :: 0 <= i < |trace| ==> WellTyped(trace[i].1)
    requires IsRevoked(s, jti)
    ensures IsRevoked(Run(s, trace), jti)
    decreases |trace|
  {
    if trace != [] {
      var rest := trace[1..];
      assert forall i :: 0 <= i < |rest| ==> WellTyped(rest[i].1) by {
        forall i | 0 <= i < |rest| ensures WellTyped(rest[i].1) { assert rest[i] == trace[i + 1]; }
      }
      var s' := Handle(trace[0].0, s, trace[0].1).state;
      RevocationIsPermanent(s', rest, jti);
      assert Run(s, trace) == Run(s', rest);
    }
  }

  /** After a logout, every later protected request carrying the same token,
      after any number of intervening requests, is refused with 401 and
      changes nothing. */
  lemma {:induction false} LoggedOutTokenRefused(env: Env, s: State, claims: Claims, trace: seq<(Env, Request)>, env': Env, req: Request)
    requires forall i :: 0 <= i < |trace| ==> WellTyped(trace[i].1)
    requires WellTyped(req) && Protected(req) && req.claims.jti == claims.jti
    ensures var later := Run(Handle(env, s, LogoutRequest(claims)).state, trace);
            Handle(env', later, req) == Outcome(401, later)
  {
    var s1 := Handle(env, s, LogoutRequest(claims)).state;
    LogoutBehindGate(env, s, claims);
    RevocationIsPermanent(s1, trace, claims.jti);
  }

  /** The ids a request brings are new: a signup's generated user id is not
      in use, and a seed's four generated video ids differ. */
  ghost predicate FreshIds(s: State, req: Request) {
    match req
    case SignupRequest(_, newId) => FreshUserId(s, newId)
    case SeedRequest(ids) => forall i, j :: 0 <= i < j < |ids| ==> ids[i] != ids[j]
    case _ => true
  }

  /** Every request keeps the store's invariants: addresses unique and
      normalised, user ids unique, video ids unique. */
  lemma HandlePreservesValid(env: Env, s: State, req: Request)
    requires Valid(s) && WellTyped(req) && FreshIds(s, req)
    ensures Valid(Handle(env, s, req).state)
  {
    var s' := Handle(env, s, req).state;
    if !(Protected(req) && IsRevoked(s, req.claims.jti)) {
      match req
      case SignupRequest(body, newId) =>
        assert s' == Signup(env, s, body, newId).state;
        SignupPreservesValid(env, s, body, newId);
      case LoginRequest(body) =>
        assert s' == Login(env, s, body).state;
        LoginPreservesValid(env, s, body);
      case LogoutRequest(claims) =>
        assert s' == Logout(env, s, claims).state;
        SameStoreValid(s, s');
      case DashboardRequest(claims, page, perPage) =>
        assert s' == Dashboard(env, s, claims.identity, page.GetOr(DefaultPage), perPage.GetOr(DefaultPerPage)).state;
      case StreamRequest(claims, videoId, token) =>
        assert s' == Stream(env, s, claims.identity, videoId, token).state;
        SameStoreValid(s, s');
      case SeedRequest(ids) =>
        assert s' == Seed(env, s, ids).state;
        SeedKeepsIdsDistinct(env, s, ids);
        SameStoreValid(s, s'.(videos := s.videos));
    }
  }

  /** The invariants speak only of the users and the videos. */
  lemma SameStoreValid(s: State, s': State)
    requires Valid(s) && s'.users == s.users && s'.videos == s.videos
    ensures Valid(s')
  {
  }
}

=== FILE: auth.dfy ===
/**
 The authentication endpoints: signup (`POST /api/auth/signup`) and login
 (`POST /api/auth/login`). Each handler takes the state and the parsed JSON
 body and returns the reply together with the next state.
 */
module Auth {
  import opened Text
  import opened Store

  /** The shortest password signup accepts. */
  const MinPasswordLength := 6

  /** Lifetime, in seconds, reported for a freshly issued access token. */
  const AccessTokenSeconds := 900

  /** The `tokens` object of a signup or login reply. */
  datatype Tokens = Tokens(accessToken: string, refreshToken: string, tokenType: string, expiresIn: int)

  /** The `user` object of a signup or login reply. */
  datatype UserView = UserView(id: string, name: string, email: string)

  datatype AuthReply = AuthReply(message: string, user: UserView, tokens: Tokens)

  /** `generate_tokens(user_id)`: an access and a refresh token for the user. */
  function GenerateTokens(env: Env, userId: string): Tokens {
    Tokens(env.accessToken(userId), env.refreshToken(userId), "Bearer", AccessTokenSeconds)
  }

  function View(u: User): UserView {
    UserView(u.id, u.name, u.email)
  }

  /** The normalised address a request body asks for. */
  function RequestedEmail(data: Json): string {
    Normalise(Field(data, "email"))
  }

  /** A signup body that passes validation: present and non-empty, a name and
      an address that are not blank, and a password of at least six code
      points (surrounding whitespace of the password counts). */
  predicate SignupWellFormed(body: Option<Json>) {
    && !NoData(body)
    && !AllSpace(Field(body.value, "name"))
    && !AllSpace(Field(body.value, "email"))
    && |Field(body.value, "password")| >= MinPasswordLength
  }

  /** A signup that stores a new account: the body passes validation and
      the normalised address is not registered yet. */
  predicate SignupSucceeds(s: State, body: Option<Json>) {
    SignupWellFormed(body) && RequestedEmail(body.value) !in s.users
  }

  /** The state after a successful signup of `data` under the id `id`:
      exactly one user added, under the normalised address, with the stripped
      name, the password's hash and the active flag set; nothing else
      changed. */
  ghost predicate SignedUp(env: Env, s: State, s': State, data: Json, id: string) {
    var e := RequestedEmail(data);
    && e !in s.users
    && s'.users.Keys == s.users.Keys + {e}
    && (forall k :: k in s.users ==> s'.users[k] == s.users[k])
    && s'.users[e].id == id
    && s'.users[e].name == Strip(Field(data, "name"))
    && s'.users[e].email == e
    && s'.users[e].passwordHash == env.hashPassword(Field(data, "password"))
    && s'.users[e].isActive == Some(true)
    && s'.users[e].lastLogin == None
    && s'.videos == s.videos
    && s'.revoked == s.revoked
    && s'.watchLog == s.watchLog
  }

  /** The user document signup stores for `data` under the id `id`. */
  function NewUser(env: Env, data: Json, id: string): User {
    var password := Field(data, "password");
    User(id, Strip(Field(data, "name")), RequestedEmail(data), env.hashPassword(password), env.now, env.now, Some(true), None)
  }

  /** `signup()`: 400 for a `null` or empty JSON body, a blank field or a short
      password, in that order; 409 for an address already registered; 201
      with tokens for the new user otherwise. `newId` is the generated id. */
  function Signup(env: Env, s: State, body: Option<Json>, newId: string): (r: Step<AuthReply>)
    ensures r.response.status == 400 <==> !SignupWellFormed(body)
    ensures r.response.status == 409 <==> SignupWellFormed(body) && RequestedEmail(body.value) in s.users
    ensures r.response.status == 201 <==> SignupSucceeds(s, body)
    ensures r.response.status != 201 ==> r.state == s && r.response.Error?
    ensures r.response.status == 201 ==>
              && r.response.Ok?
              && r.response.payload.user == View(NewUser(env, body.value, newId))
              && r.response.payload.tokens == GenerateTokens(env, newId)
              && r.state == s.(users := s.users[RequestedEmail(body.value) := NewUser(env, body.value, newId)])
  {
    if NoData(body) then
      Step(Error(400, "No data provided"), s)
    else
      var data := body.value;
      var name := Strip(Field(data, "name"));
      var email := Normalise(Field(data, "email"));
      var password := Field(data, "password");
      if name == [] || email == [] || password == [] then
        Step(Error(400, "Name, email, and password are required"), s)
      else if |password| < MinPasswordLength then
        Step(Error(400, "Password must be at least 6 characters"), s)
      else if email in s.users then
        Step(Error(409, "Email already registered"), s)
      else
        var user := NewUser(env, data, newId);
        var reply := AuthReply("User registered successfully", View(user), GenerateTokens(env, newId));
        Step(Ok(201, reply), s.(users := s.users[email := user]))
  }

  /** A successful signup adds exactly the new account and replies with its
      public view and tokens issued for its id. */
  lemma SignupAddsOneUser(env: Env, s: State, body: Option<Json>, newId: string)
    requires SignupSucceeds(s, body)
    ensures var r := Signup(env, s, body, newId);
            && SignedUp(env, s, r.state, body.value, newId)
            && r.response.payload.user == View(r.state.users[RequestedEmail(body.value)])
            && r.response.payload.tokens.accessToken == env.accessToken(newId)
  {
    var r := Signup(env, s, body, newId);
    var e := RequestedEmail(body.value);
    var u := NewUser(env, body.value, newId);
    assert e !in s.users;
    assert r.state == s.(users := s.users[e := u]);
    InsertFresh(s.users, e, u);
  }

  /** Inserting a fresh key adds that one key and keeps every other entry. */
  lemma InsertFresh<K, V>(m: map<K, V>, k: K, v: V)
    requires k !in m
    ensures m[k := v].Keys == m.Keys + {k} && m[k := v][k] == v
    ensures forall x :: x in m ==> m[k := v][x] == m[x]
  {
  }

  /** A login body that passes validation: present and non-empty, an address
      that is not empty once normalised (by `Normalise`'s contract, one that
      is not blank) and a non-empty password. */
  predicate LoginWellFormed(body: Option<Json>) {
    && !NoData(body)
    && RequestedEmail(body.value) != []
    && Field(body.value, "password") != []
  }

  /** The credentials of a well-formed login body match a stored user. */
  predicate CredentialsMatch(env: Env, s: State, data: Json) {
    var e := RequestedEmail(data);
    e in s.users && env.checkPassword(Field(data, "password"), s.users[e].passwordHash)
  }

  /** A login that gets in: a well-formed body whose credentials match a
      stored user who is not marked inactive. */
  predicate LoginSucceeds(env: Env, s: State, body: Option<Json>) {
    && LoginWellFormed(body) && CredentialsMatch(env, s, body.value)
    && s.users[RequestedEmail(body.value)].isActive != Some(false)
  }

  /** `update_one({'_id': id}, {'$set': {'last_login': t}})`. */
  function StampLastLogin(users: map<string, User>, id: string, t: Time): (r: map<string, User>)
    ensures r.Keys == users.Keys
  {
    map e | e in users :: if users[e].id == id then users[e].(lastLogin := Some(t)) else users[e]
  }

  /** The 200 reply of a login by `user`, and its `last_login` stamp. */
  function LoginOk(env: Env, s: State, user: User): (r: Step<AuthReply>)
    ensures r.response == Ok(200, AuthReply("Login successful", View(user), GenerateTokens(env, user.id)))
    ensures r.state == s.(users := r.state.users)
  {
    Step(Ok(200, AuthReply("Login successful", View(user), GenerateTokens(env, user.id))),
         s.(users := StampLastLogin(s.users, user.id, env.now)))
  }

  /** `login()`: 400 for a `null` or empty JSON body or a blank field; 401 for an
      unknown address or a wrong password, decided before the active flag is
      looked at; 403 for a user whose flag is stored as false (a missing flag
      counts as active); otherwise 200, and only then is the state changed. */
  function Login(env: Env, s: State, body: Option<Json>): (r: Step<AuthReply>)
    ensures r.response.status == 400 <==> !LoginWellFormed(body)
    ensures r.response.status == 401 <==> LoginWellFormed(body) && !CredentialsMatch(env, s, body.value)
    ensures r.response.status == 403 <==>
              && LoginWellFormed(body) && CredentialsMatch(env, s, body.value)
              && s.users[RequestedEmail(body.value)].isActive == Some(false)
    ensures r.response.status == 200 <==> LoginSucceeds(env, s, body)
    ensures r.response.status != 200 ==> r.state == s && r.response.Error?
    ensures LoginSucceeds(env, s, body) ==>
              var u := s.users[RequestedEmail(body.value)];
              && r.response.Ok?
              && r.response.payload.user == View(u)
              && r.response.payload.tokens.accessToken == env.accessToken(u.id)
              && r.state == s.(users := r.state.users)
  {
    if NoData(body) then
      Step(Error(400, "No data provided"), s)
    else if !LoginWellFormed(body) then
      Step(Error(400, "Email and password are required"), s)
    else if !CredentialsMatch(env, s, body.value) then
      Step(Error(401, "Invalid credentials"), s)
    else
      var user := s.users[RequestedEmail(body.value)];
      if !IsActive(user.isActive) then
        Step(Error(403, "Account is deactivated"), s)
      else
        LoginOk(env, s, user)
  }

  /** A successful login sets the `last_login` of the user who logged in and
      changes nothing else, because user ids are unique. */
  lemma LoginStampsOnlyThatUser(env: Env, s: State, body: Option<Json>)
    requires UserIdsDistinct(s.users)
    requires LoginSucceeds(env, s, body)
    ensures var e := RequestedEmail(body.value);
            Login(env, s, body).state == s.(users := s.users[e := s.users[e].(lastLogin := Some(env.now))])
  {
    var e := RequestedEmail(body.value);
    assert Login(env, s, body).state == s.(users := StampLastLogin(s.users, s.users[e].id, env.now));
    StampOnlyOne(s.users, e, env.now);
  }

  /** With unique ids, stamping by the id of the user stored under `e`
      rewrites that one entry. */
  lemma StampOnlyOne(users: map<string, User>, e: string, t: Time)
    requires UserIdsDistinct(users) && e in users
    ensures StampLastLogin(users, users[e].id, t) == users[e := users[e].(lastLogin := Some(t))]
  {
    var stamped := StampLastLogin(users, users[e].id, t);
    var expected := users[e := users[e].(lastLogin := Some(t))];
    forall k | k in stamped
      ensures stamped[k] == expected[k]
    {
      if k != e {
        assert users[k].id != users[e].id;
      }
    }
    assert stamped.Keys == expected.Keys;
  }

  /** Rewriting a user document without touching its address or id keeps the
      store's user invariants. */
  lemma RewriteKeepsUserInvariants(users: map<string, User>, e: string, u: User)
    requires UsersKeyedByEmail(users) && EmailsNormalised(users) && UserIdsDistinct(users)
    requires e in users && u.email == users[e].email && u.id == users[e].id
    ensures UsersKeyedByEmail(users[e := u]) && EmailsNormalised(users[e := u]) && UserIdsDistinct(users[e := u])
  {
    RewriteKeepsKeyedIds(users, e, u);
    RewriteKeepsNormalised(users, e, u);
  }

  lemma RewriteKeepsKeyedIds(users: map<string, User>, e: string, u: User)
    requires UsersKeyedByEmail(users) && UserIdsDistinct(users)
    requires e in users && u.email == users[e].email && u.id == users[e].id
    ensures UsersKeyedByEmail(users[e := u]) && UserIdsDistinct(users[e := u])
  {
  }

  lemma RewriteKeepsNormalised(users: map<string, User>, e: string, u: User)
    requires EmailsNormalised(users) && e in users
    ensures EmailsNormalised(users[e := u])
  {
  }

  /** Signup keeps the store's invariants when the generated id is fresh:
      addresses stay unique and normalised, ids stay unique. */
  lemma SignupPreservesValid(env: Env, s: State, body: Option<Json>, newId: string)
    requires Valid(s) && FreshUserId(s, newId)
    ensures Valid(Signup(env, s, body, newId).state)
  {
    var r := Signup(env, s, body, newId);
    if SignupSucceeds(s, body) {
      SignupAddsOneUser(env, s, body, newId);
      var e := RequestedEmail(body.value);
      NormaliseIdempotent(Field(body.value, "email"));
      InsertKeepsUserInvariants(s.users, r.state.users, e);
    }
  }

  /** Adding a document under a new, normalised address equal to its own
      `email`, with an id no other document has, keeps the user invariants. */
  lemma InsertKeepsUserInvariants(users: map<string, User>, users': map<string, User>, e: string)
    requires UsersKeyedByEmail(users) && EmailsNormalised(users) && UserIdsDistinct(users)
    requires e !in users && users'.Keys == users.Keys + {e}
    requires forall k :: k in users ==> users'[k] == users[k]
    requires e in users' && users'[e].email == e && Normalise(e) == e
    requires forall k :: k in users ==> users[k].id != users'[e].id
    ensures UsersKeyedByEmail(users') && EmailsNormalised(users') && UserIdsDistinct(users')
  {
    MapInsert(users, users', e);
    InsertKeepsKeyedIds(users, e, users'[e]);
    InsertKeepsNormalised(users, e, users'[e]);
  }

  lemma MapInsert<K, V>(m: map<K, V>, m': map<K, V>, k: K)
    requires k !in m && k in m' && m'.Keys == m.Keys + {k}
    requires forall x :: x in m ==> m'[x] == m[x]
    ensures m' == m[k := m'[k]]
  {
  }

  lemma InsertKeepsKeyedIds(users: map<string, User>, e: string, u: User)
    requires UsersKeyedByEmail(users) && UserIdsDistinct(users)
    requires e !in users && u.email == e
    requires forall k :: k in users ==> users[k].id != u.id
    ensures UsersKeyedByEmail(users[e := u]) && UserIdsDistinct(users[e := u])
  {
  }

  lemma InsertKeepsNormalised(users: map<string, User>, e: string, u: User)
    requires EmailsNormalised(users) && Normalise(e) == e
    ensures EmailsNormalised(users[e := u])
  {
  }

  /** Login keeps the store's invariants. */
  lemma LoginPreservesValid(env: Env, s: State, body: Option<Json>)
    requires Valid(s)
    ensures Valid(Login(env, s, body).state)
  {
    if LoginSucceeds(env, s, body) {
      LoginStampsOnlyThatUser(env, s, body);
      var e := RequestedEmail(body.value);
      RewriteKeepsUserInvariants(s.users, e, s.users[e].(lastLogin := Some(env.now)));
    }
  }

  /** The account a signup creates can log in at once with the same password
      and any spelling of the address that normalises to the same one,
      provided the password check accepts the hash of its own password. */
  lemma SignupThenLogin(env: Env, s: State, body: Option<Json>, newId: string, login: Json)
    requires SignupSucceeds(s, body)
    requires RequestedEmail(login) == RequestedEmail(body.value)
    requires Field(login, "password") == Field(body.value, "password")
    requires env.checkPassword(Field(login, "password"), env.hashPassword(Field(login, "password")))
    ensures Login(env, Signup(env, s, body, newId).state, Some(login)).response.status == 200
  {
    var s' := Signup(env, s, body, newId).state;
    SignupStoresNewUser(env, s, body, newId);
    assert RequestedEmail(body.value) != [] by {
      assert !AllSpace(Field(body.value, "email"));
    }
    LoginAccepts(env, s', login);
  }

  /** A non-empty body whose normalised address is registered and not empty,
      with a non-empty password the password check accepts against the stored
      hash, for an account not marked inactive, is answered with 200. */
  lemma LoginAccepts(env: Env, s: State, login: Json)
    requires login != map[] && Field(login, "password") != []
    requires RequestedEmail(login) != [] && RequestedEmail(login) in s.users
    requires env.checkPassword(Field(login, "password"), s.users[RequestedEmail(login)].passwordHash)
    requires s.users[RequestedEmail(login)].isActive != Some(false)
    ensures Login(env, s, Some(login)).response.status == 200
  {
    assert LoginSucceeds(env, s, Some(login));
  }

  /** The user stored by a successful signup, under its non-blank address. */
  lemma SignupStoresNewUser(env: Env, s: State, body: Option<Json>, newId: string)
    requires SignupSucceeds(s, body)
    ensures var users' := Signup(env, s, body, newId).state.users;
            RequestedEmail(body.value) in users' && users'[RequestedEmail(body.value)] == NewUser(env, body.value, newId)
  {
    var e := RequestedEmail(body.value);
    assert Signup(env, s, body, newId).state.users == s.users[e := NewUser(env, body.value, newId)];
  }

  /** Once an address is registered, any further signup that passes
      validation, for an address that normalises to it, gets 409 and leaves
      the store as it is. */
  lemma SignupTwiceConflicts(env: Env, s: State, body: Option<Json>, newId: string, again: Option<Json>, otherId: string)
    requires SignupSucceeds(s, body)
    requires SignupWellFormed(again) && RequestedEmail(again.value) == RequestedEmail(body.value)
    ensures var s' := Signup(env, s, body, newId).state;
            Signup(env, s', again, otherId).response.status == 409
            && Signup(env, s', again, otherId).state == s'
  {
  }
}

=== FILE: blocklist.dfy ===
/**
 Token revocation: `logout()` (`POST /api/auth/logout`) records the JWT id of
 the token it was called with, and the revocation check that guards every
 protected endpoint refuses any token whose JWT id is recorded.
 */
module Blocklist {
  import opened Store

  /** The claims of a decoded access token the JWT library has already
      accepted (signature, expiry and token type): its JWT id and the user id
      it was issued for. */
  datatype Claims = Claims(jti: string, identity: string)

  /** `check_if_token_revoked`: a token is revoked exactly when a document
      with its JWT id is in the revoked-token collection. */
  predicate IsRevoked(s: State, jti: string) {
    jti in s.revoked
  }

  /** `logout()`: 200 after recording the token's JWT id with its user and
      the request time; an id already recorded breaks the unique index on
      `jti`, and the insert error becomes a 500. Nothing but the revoked
      collection changes, and no entry is ever removed. */
  function Logout(env: Env, s: State, claims: Claims): (r: Step<string>)
    ensures r.response.status == 200 <==> !IsRevoked(s, claims.jti)
    ensures r.response.status != 200 ==> r.response == Error(500, "Internal server error") && r.state == s
    ensures IsRevoked(r.state, claims.jti)
    ensures r.state.revoked.Keys == s.revoked.Keys + {claims.jti}
    ensures forall k :: k in s.revoked ==> r.state.revoked[k] == s.revoked[k]
    ensures r.response.status == 200 ==>
              && r.response.Ok?
              && r.state.revoked[claims.jti] == Revocation(claims.identity, env.now)
              && r.state == s.(revoked := r.state.revoked)
  {
    if claims.jti in s.revoked then
      Step(Error(500, "Internal server error"), s)
    else
      Step(Ok(200, "Logout successful"), s.(revoked := s.revoked[claims.jti := Revocation(claims.identity, env.now)]))
  }
}

=== FILE: store.dfy ===
/**
 The backend's persistent state and the collaborators it calls but that are
 not part of this model. The MongoDB collections become immutable values:
 users keyed by their normalised e-mail address, videos as one sequence (the
 order an unsorted query returns them in, taken as fixed), the revoked-token collection keyed by JWT id, and the watch-history
 log. bcrypt, JWT creation, playback-token signing, uuid generation and the
 clock are the fields of `Env`: opaque functions the handlers are given.
 */
module Store {
  import opened Text

  datatype Option<+T> = None | Some(value: T) {
    /** `dict.get(key, default)` on an optional field. */
    function GetOr(default: T): T {
      match this
      case Some(v) => v
      case None => default
    }
  }

  /** A UTC timestamp; only its identity matters to the handlers. */
  type Time = int

  /** A parsed JSON object body whose fields are all strings. */
  type Json = map<string, string>

  /** `data.get(key, '')`. */
  function Field(data: Json, key: string): string {
    if key in data then data[key] else ""
  }

  /** Python's `not data` on the parsed body: a JSON `null` body (`None`) or
      an empty object. */
  predicate NoData(body: Option<Json>) {
    body.None? || body.value == map[]
  }

  /** A document of the `users` collection. `isActive` is optional in a
      stored document; `lastLogin` is absent until the first login. */
  datatype User = User(
    id: string,
    name: string,
    email: string,
    passwordHash: string,
    createdAt: Time,
    updatedAt: Time,
    isActive: Option<bool>,
    lastLogin: Option<Time>)

  /** A document of the `videos` collection. */
  datatype Video = Video(
    id: string,
    title: string,
    description: string,
    youtubeId: string,
    thumbnailUrl: string,
    isActive: Option<bool>,
    createdAt: Option<Time>)

  /** A document of the revoked-token collection, keyed by its JWT id. */
  datatype Revocation = Revocation(userId: string, revokedAt: Time)

  /** A document of the `watch_history` collection. */
  datatype WatchEvent = WatchEvent(userId: string, videoId: string, watchedAt: Time, action: string)

  datatype State = State(
    users: map<string, User>,
    videos: seq<Video>,
    revoked: map<string, Revocation>,
    watchLog: seq<WatchEvent>)

  /** `record.get('is_active', True)`: a missing flag counts as active. */
  function IsActive(flag: Option<bool>): bool {
    flag.GetOr(true)
  }

  /** The foreign code the handlers call, as opaque functions:
      `hashPassword`/`checkPassword` for bcrypt, `accessToken`/`refreshToken`
      for JWT creation from a user id, `playbackToken`/`verifyPlayback` for
      the signed playback token of (video id, user id), and `now` for the
      clock reading of the request. */
  datatype Env = Env(
    hashPassword: string -> string,
    checkPassword: (string, string) -> bool,
    accessToken: string -> string,
    refreshToken: string -> string,
    playbackToken: (string, string) -> string,
    verifyPlayback: (string, string, string) -> bool,
    now: Time)

  /** A JSON reply: an error object with its message, or a payload. */
  datatype Response<+T> = Error(status: int, message: string) | Ok(status: int, payload: T)

  /** What a handler returns: the reply and the state after the request. */
  datatype Step<+T> = Step(response: Response<T>, state: State)

  /** Each user document sits under its own e-mail address, so the map's
      keys are the stored addresses and no address is stored twice. */
  ghost predicate UsersKeyedByEmail(users: map<string, User>) {
    forall e :: e in users ==> users[e].email == e
  }

  /** Every stored address is already in normal form. */
  ghost predicate EmailsNormalised(users: map<string, User>) {
    forall e :: e in users ==> Normalise(e) == e
  }

  /** No two user documents share an `_id`. */
  ghost predicate UserIdsDistinct(users: map<string, User>) {
    forall e1, e2 :: e1 in users && e2 in users && e1 != e2 ==> users[e1].id != users[e2].id
  }

  /** No two video documents share an `_id`. */
  ghost predicate VideoIdsDistinct(videos: seq<Video>) {
    forall i, j :: 0 <= i < j < |videos| ==> videos[i].id != videos[j].id
  }

  ghost predicate Valid(s: State) {
    && UsersKeyedByEmail(s.users)
    && EmailsNormalised(s.users)
    && UserIdsDistinct(s.users)
    && VideoIdsDistinct(s.videos)
  }

  /** An id no stored user has: what `uuid.uuid4()` yields. */
  ghost predicate FreshUserId(s: State, id: string) {
    forall e :: e in s.users ==> s.users[e].id != id
  }
}

=== FILE: text.dfy ===
/**
 The string normalisation the backend applies to request fields before it
 validates them: Python's `str.strip()` with no argument, and `str.lower()`.
 A Dafny `char` is a Unicode scalar value, so `|s|` counts code points just as
 Python's `len` does.
 */
module Text {

  /** Python's `str.isspace()` for a single code point: the characters that
      `str.strip()` removes when called without an argument. */
  predicate IsSpace(c: char) {
    || c == ' '
    || ('\U{9}' <= c <= '\U{D}')
    || ('\U{1C}' <= c <= '\U{1F}')
    || c == '\U{85}'
    || c == '\U{A0}'
    || c == '\U{1680}'
    || ('\U{2000}' <= c <= '\U{200A}')
    || c == '\U{2028}'
    || c == '\U{2029}'
    || c == '\U{202F}'
    || c == '\U{205F}'
    || c == '\U{3000}'
  }

  predicate AllSpace(s: string) {
    forall i :: 0 <= i < |s| ==> IsSpace(s[i])
  }

  /** A string that `strip()` leaves alone: empty, or neither starting nor
      ending with whitespace. */
  ghost predicate Stripped(s: string) {
    s == [] || (!IsSpace(s[0]) && !IsSpace(s[|s| - 1]))
  }

  /** Leading whitespace removed: the result is a suffix of `s` that does not
      start with whitespace (`StripLeftCutsSpace`: what is cut off is all
      whitespace). */
  function StripLeft(s: string): (r: string)
    ensures |r| <= |s| && r == s[|s| - |r|..]
    ensures r != [] ==> !IsSpace(r[0])
  {
    if s != [] && IsSpace(s[0]) then StripLeft(s[1..]) else s
  }

  lemma {:induction false} StripLeftCutsSpace(s: string)
    ensures AllSpace(s[..|s| - |StripLeft(s)|])
  {
    if s != [] && IsSpace(s[0]) {
      var t := s[1..];
      StripLeftCutsSpace(t);
      var cut, cut' := s[..|s| - |StripLeft(s)|], t[..|t| - |StripLeft(t)|];
      forall i | 0 <= i < |cut|
        ensures IsSpace(cut[i])
      {
        if i > 0 {
          assert cut[i] == cut'[i - 1];
        }
      }
    }
  }

  /** Trailing whitespace removed: the result is a prefix of `s` that does not
      end with whitespace (`StripRightCutsSpace`: what is cut off is all
      whitespace). */
  function StripRight(s: string): (r: string)
    ensures |r| <= |s| && r == s[..|r|]
    ensures r != [] ==> !IsSpace(r[|r| - 1])
  {
    if s != [] && IsSpace(s[|s| - 1]) then StripRight(s[..|s| - 1]) else s
  }

  lemma {:induction false} StripRightCutsSpace(s: string)
    ensures AllSpace(s[|StripRight(s)|..])
  {
    if s != [] && IsSpace(s[|s| - 1]) {
      var t := s[..|s| - 1];
      StripRightCutsSpace(t);
      var cut, cut' := s[|StripRight(s)|..], t[|StripRight(t)|..];
      forall i | 0 <= i < |cut|
        ensures IsSpace(cut[i])
      {
        if i < |cut'| {
          assert cut[i] == cut'[i];
        }
      }
    }
  }

  /** Python's `s.strip()`. */
  function Strip(s: string): (r: string)
    ensures Stripped(r)
    ensures |r| <= |s|
    ensures r == [] <==> AllSpace(s)
  {
    var t := StripLeft(s);
    var r := StripRight(t);
    assert AllSpace(s) ==> t == [] by {
      if t != [] {
        assert t[0] == s[|s| - |t|];
      }
    }
    assert r == [] ==> AllSpace(s) by {
      if r == [] {
        StripLeftCutsSpace(s);
        StripRightCutsSpace(t);
        assert s == s[..|s| - |t|] + t;
        AllSpaceConcat(s[..|s| - |t|], t);
      }
    }
    r
  }

  lemma AllSpaceConcat(a: string, b: string)
    requires AllSpace(a) && AllSpace(b)
    ensures AllSpace(a + b)
  {
    forall i | 0 <= i < |a + b|
      ensures IsSpace((a + b)[i])
    {
      if i < |a| { assert (a + b)[i] == a[i]; } else { assert (a + b)[i] == b[i - |a|]; }
    }
  }

  /** `strip()` recovers the core of any whitespace-padded string: if `a` and
      `b` are whitespace and `x` has no surrounding whitespace, then
      stripping `a + x + b` gives `x`. Together with `Strip`'s contract this
      characterises `Strip` completely. */
  lemma {:induction false} StripOfPadded(a: string, x: string, b: string)
    requires AllSpace(a) && AllSpace(b) && Stripped(x)
    ensures Strip(a + x + b) == x
  {
    if x == [] {
      assert a + x + b == a + b;
      AllSpaceConcat(a, b);
    } else {
      assert a + x + b == a + (x + b);
      StripLeftPadded(a, x + b);
      StripRightPadded(x, b);
    }
  }

  lemma {:induction false} StripLeftPadded(a: string, y: string)
    requires AllSpace(a) && y != [] && !IsSpace(y[0])
    ensures StripLeft(a + y) == y
  {
    if a == [] {
      assert a + y == y;
    } else {
      assert (a + y)[0] == a[0];
      assert (a + y)[1..] == a[1..] + y;
      assert AllSpace(a[1..]) by {
        forall i | 0 <= i < |a[1..]| ensures IsSpace(a[1..][i]) { assert a[1..][i] == a[i + 1]; }
      }
      StripLeftPadded(a[1..], y);
    }
  }

  lemma {:induction false} StripRightPadded(x: string, b: string)
    requires x != [] && !IsSpace(x[|x| - 1]) && AllSpace(b)
    ensures StripRight(x + b) == x
    decreases |b|
  {
    if b == [] {
      assert x + b == x;
    } else {
      var s := x + b;
      var b' := b[..|b| - 1];
      assert s[|s| - 1] == b[|b| - 1];
      assert s[..|s| - 1] == x + b';
      assert AllSpace(b') by {
        forall i | 0 <= i < |b'| ensures IsSpace(b'[i]) { assert b'[i] == b[i]; }
      }
      StripRightPadded(x, b');
    }
  }

  /** Every string is its stripped core padded with whitespace on both sides. */
  lemma StripDecompose(s: string) returns (a: string, b: string)
    ensures AllSpace(a) && AllSpace(b)
    ensures s == a + Strip(s) + b
  {
    var t := StripLeft(s);
    var r := StripRight(t);
    a := s[..|s| - |t|];
    b := t[|r|..];
    StripLeftCutsSpace(s);
    StripRightCutsSpace(t);
    Glue(s, t, r);
  }

  lemma Glue<T>(s: seq<T>, t: seq<T>, r: seq<T>)
    requires |t| <= |s| && t == s[|s| - |t|..]
    requires |r| <= |t| && r == t[..|r|]
    ensures s == s[..|s| - |t|] + r + t[|r|..]
  {
    assert t == r + t[|r|..];
    assert s == s[..|s| - |t|] + t;
  }

  /** A string with no surrounding whitespace is a fixed point of `strip()`. */
  lemma StripStripped(x: string)
    requires Stripped(x)
    ensures Strip(x) == x
  {
    assert [] + x + [] == x;
    StripOfPadded([], x, []);
  }

  /** `strip()` is idempotent. */
  lemma StripIdempotent(s: string)
    ensures Strip(Strip(s)) == Strip(s)
  {
    StripStripped(Strip(s));
  }

  /** Python's `str.lower()` restricted to ASCII letters. */
  function LowerChar(c: char): char {
    if 'A' <= c <= 'Z' then (c as int + 32) as char else c
  }

  predicate IsUpper(c: char) {
    'A' <= c <= 'Z'
  }

  /** `s.lower()`: the same length, no ASCII capital left, and each code point
      either kept or replaced by its lower-case letter. */
  function Lower(s: string): (r: string)
    ensures |r| == |s|
    ensures forall i {:trigger r[i]} :: 0 <= i < |r| ==> !IsUpper(r[i])
    ensures forall i {:trigger r[i]} :: 0 <= i < |r| ==> r[i] == s[i] || (IsUpper(s[i]) && r[i] as int == s[i] as int + 32)
  {
    seq(|s|, i requires 0 <= i < |s| => LowerChar(s[i]))
  }

  /** Lower-casing never turns whitespace into non-whitespace or back, so it
      commutes with stripping. */
  lemma LowerKeepsSpace(s: string)
    ensures forall i {:trigger Lower(s)[i]} :: 0 <= i < |s| ==> (IsSpace(Lower(s)[i]) <==> IsSpace(s[i]))
  {
  }

  /** `lower()` is idempotent. */
  lemma LowerIdempotent(s: string)
    ensures Lower(Lower(s)) == Lower(s)
  {
  }

  /** The e-mail normalisation used by signup and login: `strip()` then
      `lower()`. */
  function Normalise(s: string): (r: string)
    ensures r == [] <==> AllSpace(s)
  {
    Lower(Strip(s))
  }

  /** A normalised address has no surrounding whitespace and no upper-case
      ASCII letter. */
  lemma NormaliseIsNormalForm(s: string)
    ensures Stripped(Normalise(s))
    ensures forall i :: 0 <= i < |Normalise(s)| ==> !IsUpper(Normalise(s)[i])
  {
    var t := Strip(s);
    var n := Lower(t);
    if n != [] {
      LowerKeepsSpace(t);
      assert IsSpace(n[0]) <==> IsSpace(t[0]);
      assert IsSpace(n[|n| - 1]) <==> IsSpace(t[|t| - 1]);
    }
  }

  /** Normalising a normalised address changes nothing: a stored address is
      found again by the same lookup that stored it. */
  lemma NormaliseIdempotent(s: string)
    ensures Normalise(Normalise(s)) == Normalise(s)
  {
    var n := Normalise(s);
    NormaliseIsNormalForm(s);
    StripStripped(n);
    LowerIdempotent(Strip(s));
  }

  lemma Regroup(a: string, b: string, c: string, d: string, e: string)
    ensures a + (b + c + d) + e == (a + b) + c + (d + e)
  {
  }

  /** Extra surrounding whitespace does not change what `strip()` returns. */
  lemma StripIgnoresPadding(a: string, x: string, b: string)
    requires AllSpace(a) && AllSpace(b)
    ensures Strip(a + x + b) == Strip(x)
  {
    var la, lb := StripDecompose(x);
    AllSpaceConcat(a, la);
    AllSpaceConcat(lb, b);
    var core := Strip(x);
    Regroup(a, la, core, lb, b);
    StripOfPadded(a + la, core, lb + b);
  }

  /** Surrounding whitespace in an address does not matter to the lookup. */
  lemma NormaliseIgnoresPadding(a: string, x: string, b: string)
    requires AllSpace(a) && AllSpace(b)
    ensures Normalise(a + x + b) == Normalise(x)
  {
    StripIgnoresPadding(a, x, b);
  }
}

=== FILE: videos.dfy ===
/**
 The video endpoints: the paginated dashboard (`GET /api/dashboard`), the
 stream lookup (`GET /api/video/<video_id>/stream`) and the development seed
 (`POST /api/admin/seed-videos`).
 */
module Videos {
  import opened Store

  function Min(a: int, b: int): int {
    if a <= b then a else b
  }

  // ---------------------------------------------------------------- dashboard

  /** The dashboard's query `{'is_active': True}`: only a stored `true`
      matches, so a video without the flag is not listed. */
  predicate Listed(v: Video) {
    v.isActive == Some(true)
  }

  /** The listed videos, in the order of the stored sequence. */
  function ActiveVideos(vs: seq<Video>): (r: seq<Video>)
    ensures |r| <= |vs|
    ensures forall i :: 0 <= i < |r| ==> Listed(r[i])
    ensures forall v :: v in r <==> v in vs && Listed(v)
  {
    if vs == [] then []
    else if Listed(vs[0]) then [vs[0]] + ActiveVideos(vs[1..])
    else ActiveVideos(vs[1..])
  }

  /** Filtering distributes over concatenation: the listed videos of two
      stretches of the collection, one after the other, keep their order. */
  lemma {:induction false} ActiveConcat(a: seq<Video>, b: seq<Video>)
    ensures ActiveVideos(a + b) == ActiveVideos(a) + ActiveVideos(b)
    decreases |a|
  {
    if a == [] {
      assert a + b == b;
    } else {
      assert (a + b)[1..] == a[1..] + b;
      ActiveConcat(a[1..], b);
    }
  }

  /** A collection whose every video is listed is listed whole, in order. */
  lemma {:induction false} AllListedAreActive(vs: seq<Video>)
    requires forall i :: 0 <= i < |vs| ==> Listed(vs[i])
    ensures ActiveVideos(vs) == vs
    decreases |vs|
  {
    if vs != [] {
      AllListedAreActive(vs[1..]);
    }
  }

  /** `(total + per_page - 1) // per_page`. Python's `//` floors; Dafny's `/`
      is Euclidean; the two agree when the divisor is positive. */
  function TotalPages(total: nat, perPage: int): nat
    requires perPage >= 1
  {
    (total + perPage - 1) / perPage
  }

  /** The page count is the ceiling of `total / per_page`: enough pages to
      hold every listed video, and no page more. */
  lemma TotalPagesIsCeiling(total: nat, perPage: int)
    requires perPage >= 1
    ensures TotalPages(total, perPage) * perPage >= total
    ensures total > 0 ==> (TotalPages(total, perPage) - 1) * perPage < total
    ensures total == 0 ==> TotalPages(total, perPage) == 0
  {
    var n := total + perPage - 1;
    var q := n / perPage;
    var r := n % perPage;
    assert n == q * perPage + r && 0 <= r < perPage;
    assert (q - 1) * perPage == q * perPage - perPage;
  }

  /** Videos skipped before page `page`: `(page - 1) * per_page`. */
  function Offset(page: int, perPage: int): (o: nat)
    requires page >= 1 && perPage >= 1
  {
    (page - 1) * perPage
  }

  /** `.skip(offset).limit(per_page)` on the listed videos: at most
      `per_page` videos, the ones at positions `offset`, `offset + 1`, ...,
      as many as there are. */
  function PageOf(active: seq<Video>, page: int, perPage: int): (r: seq<Video>)
    requires page >= 1 && perPage >= 1
    ensures |r| <= perPage
    ensures |r| == if Offset(page, perPage) >= |active| then 0 else Min(perPage, |active| - Offset(page, perPage))
    ensures forall i :: 0 <= i < |r| ==>
              Offset(page, perPage) + i < |active| && r[i] == active[Offset(page, perPage) + i]
  {
    var o := Offset(page, perPage);
    var skipped := if o >= |active| then [] else active[o..];
    if |skipped| <= perPage then skipped else skipped[..perPage]
  }

  /** Pages 1 to `n`, one after the other. */
  function Pages(active: seq<Video>, perPage: int, n: nat): seq<Video>
    requires perPage >= 1
  {
    if n == 0 then [] else Pages(active, perPage, n - 1) + PageOf(active, n, perPage)
  }

  /** The first `n` pages are the first `n * per_page` listed videos. */
  lemma {:induction false} PagesArePrefix(active: seq<Video>, perPage: int, n: nat)
    requires perPage >= 1
    ensures Pages(active, perPage, n) == active[..Min(n * perPage, |active|)]
  {
    if n > 0 {
      PagesArePrefix(active, perPage, n - 1);
      var o := Offset(n, perPage);
      var m := Min(n * perPage, |active|);
      NextOffset(n, perPage);
      if o < |active| {
        PageIsSlice(active, n, perPage, m);
        SliceConcat(active, o, m);
      }
    }
  }

  lemma NextOffset(n: int, perPage: int)
    requires n >= 1 && perPage >= 1
    ensures Offset(n, perPage) + perPage == n * perPage
  {
  }

  /** A page that starts inside the listing is a slice of it. */
  lemma PageIsSlice(active: seq<Video>, page: int, perPage: int, m: int)
    requires page >= 1 && perPage >= 1 && Offset(page, perPage) < |active|
    requires m == Min(Offset(page, perPage) + perPage, |active|)
    ensures PageOf(active, page, perPage) == active[Offset(page, perPage)..m]
  {
  }

  lemma SliceConcat<T>(s: seq<T>, i: int, j: int)
    requires 0 <= i <= j <= |s|
    ensures s[..i] + s[i..j] == s[..j]
  {
  }

  /** Reading pages 1 to `total_pages` in order returns every listed video
      exactly once, in order. */
  lemma PagesCoverActive(active: seq<Video>, perPage: int)
    requires perPage >= 1
    ensures Pages(active, perPage, TotalPages(|active|, perPage)) == active
  {
    var n := TotalPages(|active|, perPage);
    TotalPagesIsCeiling(|active|, perPage);
    PagesArePrefix(active, perPage, n);
    assert active[..|active|] == active;
  }

  /** Every page after `total_pages` is empty. */
  lemma PagesBeyondAreEmpty(active: seq<Video>, page: int, perPage: int)
    requires perPage >= 1 && page > TotalPages(|active|, perPage)
    ensures PageOf(active, page, perPage) == []
  {
    var n := TotalPages(|active|, perPage);
    TotalPagesIsCeiling(|active|, perPage);
    assert (page - 1) * perPage >= n * perPage;
  }

  /** One entry of the dashboard's `videos` list. */
  datatype VideoCard = VideoCard(
    id: string,
    title: string,
    description: string,
    thumbnailUrl: string,
    playbackToken: string,
    createdAt: Time)

  /** The dashboard's `pagination` object. */
  datatype PageInfo = PageInfo(page: int, perPage: int, total: nat, totalPages: nat)

  datatype DashboardReply = DashboardReply(videos: seq<VideoCard>, pagination: PageInfo)

  /** The card for a listed video, with a playback token minted for the
      requesting user; a missing `created_at` reads as the request time. */
  function Card(env: Env, userId: string, v: Video): VideoCard {
    VideoCard(v.id, v.title, v.description, v.thumbnailUrl, env.playbackToken(v.id, userId), v.createdAt.GetOr(env.now))
  }

  /** `get_dashboard()`: always 200 and read-only; the cards are the listed
      videos of the requested page in order, at most `per_page` of them, and
      the pagination reports the number of listed videos and its page
      count. */
  function Dashboard(env: Env, s: State, userId: string, page: int, perPage: int): (r: Step<DashboardReply>)
    requires page >= 1 && perPage >= 1
    ensures r.state == s && r.response.Ok? && r.response.status == 200
    ensures var p := r.response.payload;
            var active := ActiveVideos(s.videos);
            && |p.videos| <= perPage
            && |p.videos| == |PageOf(active, page, perPage)|
            && (forall i :: 0 <= i < |p.videos| ==>
                  Offset(page, perPage) + i < |active|
                  && p.videos[i] == Card(env, userId, active[Offset(page, perPage) + i]))
            && p.pagination.page == page && p.pagination.perPage == perPage
            && p.pagination.total == |active|
            && p.pagination.totalPages == TotalPages(|active|, perPage)
            && p.pagination.totalPages * perPage >= |active|
            && (|active| > 0 ==> (p.pagination.totalPages - 1) * perPage < |active|)
  {
    var active := ActiveVideos(s.videos);
    var shown := PageOf(active, page, perPage);
    var cards := seq(|shown|, i requires 0 <= i < |shown| => Card(env, userId, shown[i]));
    TotalPagesIsCeiling(|active|, perPage);
    var info := PageInfo(page, perPage, |active|, TotalPages(|active|, perPage));
    Step(Ok(200, DashboardReply(cards, info)), s)
  }

  // ------------------------------------------------------------------- stream

  const EmbedPrefix := "https://www.youtube.com/embed/"

  /** The `stream` object of a stream reply. */
  datatype StreamInfo = StreamInfo(kind: string, embedUrl: string, posterUrl: string)

  datatype StreamReply = StreamReply(
    videoId: string,
    title: string,
    description: string,
    thumbnailUrl: string,
    stream: StreamInfo)

  /** `find_one({'_id': id})`: the position of the first video with that id. */
  function FindVideo(vs: seq<Video>, id: string): (r: Option<nat>)
    ensures r.Some? ==> r.value < |vs| && vs[r.value].id == id
    ensures r.Some? ==> forall j :: 0 <= j < r.value ==> vs[j].id != id
    ensures r.None? <==> forall j :: 0 <= j < |vs| ==> vs[j].id != id
  {
    FindFrom(vs, id, 0)
  }

  function FindFrom(vs: seq<Video>, id: string, k: nat): (r: Option<nat>)
    requires k <= |vs|
    requires forall j :: 0 <= j < k ==> vs[j].id != id
    ensures r.Some? ==> k <= r.value < |vs| && vs[r.value].id == id
    ensures r.Some? ==> forall j :: 0 <= j < r.value ==> vs[j].id != id
    ensures r.None? <==> forall j :: 0 <= j < |vs| ==> vs[j].id != id
    decreases |vs| - k
  {
    if k == |vs| then None
    else if vs[k].id == id then Some(k)
    else FindFrom(vs, id, k + 1)
  }

  /** Every code point is ASCII: what `secrets.compare_digest` demands of two
      `str` arguments. */
  predicate IsAscii(s: string) {
    forall i :: 0 <= i < |s| ==> s[i] < 128 as char
  }

  /** A present, non-empty token with a non-ASCII code point: the first
      `compare_digest` of the verifier raises, and the handler answers 500. */
  predicate TokenRaises(token: Option<string>) {
    token.Some? && token.value != [] && !IsAscii(token.value)
  }

  /** The playback-token check: a token is present, non-empty, ASCII and
      verified for this video and user. */
  predicate TokenAccepted(env: Env, userId: string, videoId: string, token: Option<string>) {
    token.Some? && token.value != [] && IsAscii(token.value) && env.verifyPlayback(videoId, userId, token.value)
  }

  /** The watch-history entry a successful stream request logs. */
  function StreamEvent(env: Env, userId: string, videoId: string): WatchEvent {
    WatchEvent(userId, videoId, env.now, "stream_requested")
  }

  /** `get_video_stream()`: 500 for a non-ASCII playback token and 403 for a
      missing, empty or rejected one, both before the store is consulted;
      404 when no video has the id;
      403 for a video whose flag is stored as false (a missing flag counts as
      active); otherwise 200 with the YouTube embed URL of the video, and
      one watch event appended to the history. */
  function Stream(env: Env, s: State, userId: string, videoId: string, token: Option<string>): (r: Step<StreamReply>)
    ensures TokenRaises(token) ==> r.response == Error(500, "Internal server error") && r.state == s
    ensures !TokenAccepted(env, userId, videoId, token) && !TokenRaises(token) ==>
              r.response == Error(403, "Invalid or expired token") && r.state == s
    ensures r.response.status == 500 <==> TokenRaises(token)
    ensures r.response.status == 404 <==>
              TokenAccepted(env, userId, videoId, token) && forall j :: 0 <= j < |s.videos| ==> s.videos[j].id != videoId
    ensures r.response.status == 403 <==>
              || (!TokenAccepted(env, userId, videoId, token) && !TokenRaises(token))
              || (&& TokenAccepted(env, userId, videoId, token)
                  && FindVideo(s.videos, videoId).Some? && s.videos[FindVideo(s.videos, videoId).value].isActive == Some(false))
    ensures r.response.status != 200 ==> r.state == s && r.response.Error?
    ensures (&& TokenAccepted(env, userId, videoId, token)
             && FindVideo(s.videos, videoId).Some?
             && IsActive(s.videos[FindVideo(s.videos, videoId).value].isActive))
            ==> r.response.status == 200
    ensures r.response.status == 200 ==>
              && TokenAccepted(env, userId, videoId, token)
              && r.response.Ok?
              && (exists j :: 0 <= j < |s.videos| && s.videos[j].id == videoId && IsActive(s.videos[j].isActive)
                              && r.response.payload.stream.embedUrl == EmbedPrefix + s.videos[j].youtubeId)
              && r.response.payload.videoId == videoId
              && r.state == s.(watchLog := s.watchLog + [StreamEvent(env, userId, videoId)])
  {
    if TokenRaises(token) then
      Step(Error(500, "Internal server error"), s)
    else if !TokenAccepted(env, userId, videoId, token) then
      Step(Error(403, "Invalid or expired token"), s)
    else
      match FindVideo(s.videos, videoId)
      case None => Step(Error(404, "Video not found"), s)
      case Some(j) =>
        var v := s.videos[j];
        if !IsActive(v.isActive) then
          Step(Error(403, "Video is not available"), s)
        else
          var info := StreamInfo("youtube_embed", EmbedPrefix + v.youtubeId, v.thumbnailUrl);
          var reply := StreamReply(videoId, v.title, v.description, v.thumbnailUrl, info);
          Step(Ok(200, reply), s.(watchLog := s.watchLog + [StreamEvent(env, userId, videoId)]))
  }

  /** The token is checked before any lookup: with a rejected token, whether
      refused with 403 or raising with 500, the reply does not depend on the
      stored videos at all. */
  lemma StreamChecksTokenFirst(env: Env, s1: State, s2: State, userId: string, videoId: string, token: Option<string>)
    requires !TokenAccepted(env, userId, videoId, token)
    ensures Stream(env, s1, userId, videoId, token).response == Stream(env, s2, userId, videoId, token).response
  {
  }

  /** With unique video ids, an accepted token and an active video, the
      stream reply embeds exactly that video. */
  lemma StreamServesThatVideo(env: Env, s: State, userId: string, token: Option<string>, j: nat)
    requires VideoIdsDistinct(s.videos) && j < |s.videos|
    requires TokenAccepted(env, userId, s.videos[j].id, token)
    requires IsActive(s.videos[j].isActive)
    ensures var r := Stream(env, s, userId, s.videos[j].id, token);
            && r.response.Ok? && r.response.status == 200
            && r.response.payload.stream.embedUrl == EmbedPrefix + s.videos[j].youtubeId
            && r.response.payload.title == s.videos[j].title
  {
    var f := FindVideo(s.videos, s.videos[j].id);
    assert f.Some?;
    assert f.value == j;
  }

  // --------------------------------------------------------------------- seed

  /** The YouTube thumbnail address of a video id. */
  function ThumbnailUrl(youtubeId: string): string {
    "https://img.youtube.com/vi/" + youtubeId + "/maxresdefault.jpg"
  }

  /** A seeded video: active, stamped with the request time, with the
      thumbnail of its YouTube id. */
  function Sample(id: string, title: string, description: string, youtubeId: string, now: Time): Video {
    Video(id, title, description, youtubeId, ThumbnailUrl(youtubeId), Some(true), Some(now))
  }

  /** Title, description and YouTube id of the four sample videos. */
  const SampleCatalog: seq<(string, string, string)> := [
    ("How Startups Fail",
     "Lessons from real founders about common pitfalls and how to avoid them in your startup journey.",
     "J8M5dPRcNus"),
    ("The Art of Product Management",
     "Learn the essential skills and frameworks used by top product managers at leading tech companies.",
     "huTSPanXdqg"),
    ("Building Scalable Systems",
     "Architecture patterns and best practices for building systems that can handle millions of users.",
     "9n8hP4dQEEw"),
    ("Design Thinking Workshop",
     "A hands-on workshop covering the design thinking methodology for solving complex problems.",
     "5VCPyrU0qVQ")
  ]

  /** The four sample videos `seed_videos()` inserts, in catalogue order,
      under the generated ids `ids`. */
  function SampleVideos(ids: seq<string>, now: Time): (r: seq<Video>)
    requires |ids| == |SampleCatalog|
    ensures |r| == |SampleCatalog|
    ensures forall i :: 0 <= i < |r| ==> r[i].id == ids[i] && Listed(r[i])
    ensures forall i :: 0 <= i < |r| ==>
              r[i].youtubeId == SampleCatalog[i].2 && r[i].thumbnailUrl == ThumbnailUrl(r[i].youtubeId)
  {
    seq(|ids|, i requires 0 <= i < |ids| =>
      Sample(ids[i], SampleCatalog[i].0, SampleCatalog[i].1, SampleCatalog[i].2, now))
  }

  /** `seed_videos()`: 200 and no change when any video exists, active or
      not; otherwise the four samples are inserted and the reply is 201.
      `ids` are the four generated ids. */
  function Seed(env: Env, s: State, ids: seq<string>): (r: Step<string>)
    requires |ids| == 4
    ensures r.response.Ok?
    ensures r.response.status == 200 <==> |s.videos| > 0
    ensures r.response.status == 200 ==> r.state == s
    ensures |s.videos| == 0 ==> r.response.status == 201 && r.state.videos == SampleVideos(ids, env.now)
    ensures r.response.status == 201 ==>
              && s.videos == []
              && |r.state.videos| == 4
              && (forall i :: 0 <= i < 4 ==> r.state.videos[i].id == ids[i] && Listed(r.state.videos[i]))
              && r.state == s.(videos := r.state.videos)
  {
    if |s.videos| > 0 then
      Step(Ok(200, "Videos already seeded"), s)
    else
      Step(Ok(201, "Seeded 4 videos successfully"), s.(videos := s.videos + SampleVideos(ids, env.now)))
  }

  /** Seeding is idempotent: after one seed request, another never changes
      the store and always answers 200. */
  lemma SeedIdempotent(env: Env, env': Env, s: State, ids: seq<string>, ids': seq<string>)
    requires |ids| == 4 && |ids'| == 4
    ensures var s' := Seed(env, s, ids).state;
            Seed(env', s', ids') == Step(Ok(200, "Videos already seeded"), s')
  {
  }

  /** Seeding with four distinct ids leaves the video ids unique. */
  lemma SeedKeepsIdsDistinct(env: Env, s: State, ids: seq<string>)
    requires |ids| == 4 && VideoIdsDistinct(s.videos)
    requires forall i, j :: 0 <= i < j < 4 ==> ids[i] != ids[j]
    ensures VideoIdsDistinct(Seed(env, s, ids).state.videos)
  {
  }

  /** Seeding an empty store lists all four samples on the dashboard, in
      catalogue order. */
  lemma SeedListsSamples(env: Env, s: State, ids: seq<string>)
    requires |ids| == 4 && s.videos == []
    ensures ActiveVideos(Seed(env, s, ids).state.videos) == SampleVideos(ids, env.now)
  {
    AllListedAreActive(SampleVideos(ids, env.now));
  }
}
